=== FILE: README.md ===
# Pension plan calculator: benefit engine

A Dafny model of the benefit-calculation engine of a pension plan
calculator web application. Its users compare three kinds of employer
pension plans:

- defined-benefit (DB) plans, which pay an accrual rate times salary times service;
- defined-contribution (DC) plans, which pay out a grown account at 4% a year;
- Canada Pension Plan (CPP) entitlements.

The engine has two parts.

- **The pension router** (`src/server/api/routers/pension.ts`) holds three
  calculations inline in its request handlers. The model pulls each one out
  as a pure function of the looked-up plan records and the user's scenario:
  - the simple per-plan estimate (`calculateBenefits`): monthly benefit,
    yearly benefit and replacement ratio, keyed by plan id;
  - the detailed single-plan estimate (`calculateDetailedBenefits`): total
    contributions, a DB bridge benefit and a DB early-retirement penalty,
    applied in source order;
  - the year-by-year projection (`calculateProjections`): one data point per
    whole age, with each plan's rounded value stored under the plan's name.
- **The standalone CPP calculator**
  (`src/server/services/calculators/cpp-calculator.ts`). It counts
  contributory years (at most 39) and applies the 17% dropout of the lowest
  years. It caps each year at the YMPE (Year's Maximum Pensionable
  Earnings), sorts and averages what remains, computes an exact age from
  year, month and day, and applies the early/late adjustment: -0.6% per
  month before 65, +0.7% per month after.

Modules:

- `Wrappers`: `Option`.
- `Numeric`: `Math.pow` with an integer exponent, `Math.round`, `Math.min`,
  and the `reduce` sum.
- `Plans`: the plan record, the scenario, and JavaScript truthiness of
  nullable columns.
- `Keyed`: a record whose keys are assigned in order, with the last write
  winning.
- `Benefits`, `Detailed`, `Projections`: the three router calculations.
- `Sorting`: the descending sort.
- `CppCalculator`: the CPP calculator.

Numbers are exact `real`s. Ages and years of service are `int`s, because
the input forms parse them as whole numbers. A JavaScript division that
would give `Infinity` or `NaN` becomes a precondition.

Two behaviours of the detailed calculator are easy to miss:

- It computes `totalContributions` for every plan type, CPP included
  (pension.ts:173-175).
- Its switch has no default branch, so an unknown plan type gets a yearly
  benefit of 0. The simple calculator's default branch pays 2% per year of
  service.

## Model

| member | source | states |
|---|---|---|
| Plans.SimpleCppFactor | src/server/api/routers/pension.ts:96-102 | The simplified CPP factor is 1 exactly when the retirement age is 65 or more, and 0.7 exactly when it is below 65. |
| Benefits.DcYearly | src/server/api/routers/pension.ts:87-90 | The DC payout is zero exactly when salary x match is zero, and positive exactly when it is positive, for any horizon and positive growth. |
| Benefits.FromYearly | src/server/api/routers/pension.ts:79-81 | The monthly benefit is a twelfth of the yearly benefit, and the replacement ratio is the yearly benefit as a percentage of salary. |
| Benefits.CalculateBenefit | src/server/api/routers/pension.ts:72-108 | DB pays salary x accrual x service, so its ratio is accrual x service x 100. DC pays the 5%-grown account of twice salary x match, at 4% a year. CPP pays 1306.57 a month (x 0.7 before 65), regardless of salary or service. An unknown type pays salary x 2% x service. A DB or DC plan without a truthy rate leaves all three figures at 0. Elsewhere monthly is yearly / 12 and the ratio is yearly / salary x 100. |
| Benefits.CalculateBenefits | src/server/api/routers/pension.ts:71-114 | The result has exactly the ids of the looked-up plans as keys. Each id maps to the estimate of the last plan carrying that id. |
| Keyed.LastWins | src/server/api/routers/pension.ts:110-114 | Assigning values to keys in order gives a record whose keys are exactly the assigned keys. Each key holds the value of its last assignment. |
| Keyed.EveryKeyHasLastIndex | src/server/api/routers/pension.ts:377 | Every key that occurs has a last assignment, so the previous row determines every stored value. |
| Detailed.DbBranch | src/server/api/routers/pension.ts:178-192 | For a DB plan with a truthy accrual rate: a bridge of 20% of the pre-penalty benefit is present exactly when the plan has a bridge and retirement is before 65. A penalty of pre x 0.05 x early years is present exactly when the plan has a truthy early-retirement age and retirement is before the plan's age. The yearly benefit is pre minus the penalty. |
| Detailed.SwitchBranch | src/server/api/routers/pension.ts:177-208 | Only a DB plan with a truthy accrual rate yields a bridge or a penalty. DC grows at 6%. CPP pays twelve times the simplified monthly amount. A plan without its rate, or of an unknown type, yields 0. |
| Detailed.Finish | src/server/api/routers/pension.ts:210-211 | After the switch, the monthly benefit and ratio are derived from the final yearly benefit. The bridge, the penalty and the total contributions pass through unchanged. |
| Detailed.CalculateDetailedBenefit | src/server/api/routers/pension.ts:166-211 | Total contributions are salary x (10% for DB, else 5%) x (service + years to retirement), for every type. Bridge and penalty appear only for a DB plan with a truthy rate, and follow the simple DB benefit as in DbBranch. DC uses 6% growth. CPP's monthly benefit equals the simplified amount. An unknown type or a missing rate gives 0. The monthly benefit and ratio follow the final yearly benefit. |
| Detailed.PenaltyScalesBenefit | src/server/api/routers/pension.ts:186-190 | With the penalty applied, the yearly benefit is the simple DB benefit x (1 - 0.05 x early years). The monthly benefit and ratio come from the reduced amount. |
| Detailed.PenaltyHasNoFloor | src/server/api/routers/pension.ts:186-190 | With more than 20 early years, a positive pre-penalty benefit becomes a negative yearly benefit. |
| Detailed.AgreesWithSimpleWithoutPenalty | src/server/api/routers/pension.ts:177-211 | Without a penalty, the detailed and simple calculators give the same yearly, monthly and ratio figures. This holds for DB, for CPP, and for DC when retiring now. |
| Detailed.DcYearlyGrowthMonotone | src/server/api/routers/pension.ts:196-198 | Over a non-negative horizon with non-negative contributions, a faster growth rate never lowers the DC payout. |
| Detailed.DetailedDcAtLeastSimple | src/server/api/routers/pension.ts:194-200 | For a retirement age not below the current age and non-negative contributions, the detailed DC benefit at 6% is at least the simple one at 5%. |
| Numeric.Pow | src/server/api/routers/pension.ts:89 | A power of a non-zero base is non-zero. A power of a positive base is positive. |
| Numeric.IntPow | src/server/api/routers/pension.ts:89 | `Math.pow` with an integer exponent: the natural power for n >= 0, and its reciprocal for n < 0 (reached when the retirement age is below the current age). It is positive for a positive base. |
| Numeric.PowMonotoneInBase | src/server/api/routers/pension.ts:197 | For non-negative bases, a larger base gives a larger-or-equal power. |
| Numeric.Round | src/server/api/routers/pension.ts:377 | `Math.round` gives the integer within half a unit, with halves going up. |
| Numeric.Min | src/server/services/calculators/cpp-calculator.ts:85 | The minimum is at most both arguments and is one of them. |
| Numeric.MinInt | src/server/api/routers/pension.ts:339 | The integer minimum is at most both arguments and is one of them. |
| Numeric.SumAtMost | src/server/services/calculators/cpp-calculator.ts:94 | A sum of n values, each at most m, is at most n x m. |
| Numeric.SumAtLeast | src/server/services/calculators/cpp-calculator.ts:94 | A sum of n values, each at least m, is at least n x m. |
| Numeric.SumConcat | src/server/services/calculators/cpp-calculator.ts:94 | The left-to-right `reduce` sum of a concatenation is the sum of the parts' sums. |
| Projections.SalaryAtAge | src/server/api/routers/pension.ts:331 | The salary after no years is the current salary. With non-negative growth, a non-negative salary never falls below the current salary. |
| Projections.ServiceAtAge | src/server/api/routers/pension.ts:339 | The service counted is at most 35 and at most the service reached. It is one of the two. |
| Projections.Discount | src/server/api/routers/pension.ts:342-347 | A discounted value grown back over the years to retirement gives the value due at retirement. At or after retirement the value is not discounted. |
| Projections.AnnuityDueTimesRate | src/server/api/routers/pension.ts:355-356 | The annuity-due sum of (1+r)^k for k = 1..n, times r, telescopes to ((1+r)^n - 1)(1+r). |
| Projections.AnnuityDueClosedForm | src/server/api/routers/pension.ts:353-356 | The closed form ((1+r)^n - 1) / r x (1+r) equals the annuity-due sum of one unit paid at the start of each year. |
| Projections.DcValue | src/server/api/routers/pension.ts:353-356 | The DC projection is the annual contribution times the annuity-due sum. |
| Projections.AccumulatedValue | src/server/api/routers/pension.ts:333-375 | DB: the value, grown back to retirement, is the grown salary x accrual x service capped at 35. DC: the contribution on the grown salary times the annuity-due sum. CPP: the value, grown back, is 12 x 1306.57 x the factor keyed on the simulated age. An unknown type gives grown salary x 2% x years contributed. A DB or DC plan without its rate gives 0. |
| Projections.RoundedValues | src/server/api/routers/pension.ts:377 | One rounded value per plan, in plan order. |
| Projections.PointValues | src/server/api/routers/pension.ts:333-378 | A point's keys are exactly the plans' names. Each name holds the rounded value of the last plan with that name. |
| Projections.BuildPointValues | src/server/api/routers/pension.ts:333-378 | Writing the plans' rounded values one by one under their names yields the point's values. |
| Projections.EmptyTimelineAcceptsAll | src/server/api/routers/pension.ts:327-383 | When the current age is past the retirement age, the projection accepts every plan list and every return, a DC plan with a zero return included: the loop never runs and nothing is divided. |
| Projections.CalculateProjections | src/server/api/routers/pension.ts:325-383 | The timeline has retirementAge - currentAge + 1 points, or none when retirement is before the current age. Point i is at age currentAge + i, which lies in the projected range, and holds that age's plan values. |
| Projections.DbLastPointUndiscounted | src/server/api/routers/pension.ts:337-349 | At the retirement age, a DB plan's value is its undiscounted yearly benefit on the grown salary and the capped service. |
| Projections.DbLastPointMatchesSimple | src/server/api/routers/pension.ts:337-349 | With no salary growth and service within the cap, the last DB point equals the simple estimate for the service reached at retirement. |
| Projections.CppLastPointMatchesSimple | src/server/api/routers/pension.ts:360-371 | The last CPP point equals the simple calculator's yearly CPP benefit. |
| Projections.AsWrittenPoint | src/server/api/routers/pension.ts:327-378 | The source's single-record data point: its keys are "age" plus the plans' names. It holds the age whenever no plan is named "age"; otherwise it holds the rounded value of the last plan with that name. |
| Projections.AgeKeyClobbered | src/server/api/routers/pension.ts:327-378 | A CPP plan named "age" replaces the age 65 of a data point by the value 15679. |
| Sorting.Insert | src/server/services/calculators/cpp-calculator.ts:88 | Inserting into a descending sequence keeps it descending. The result has the old elements plus the new one. |
| Sorting.SortDescending | src/server/services/calculators/cpp-calculator.ts:88 | The sort returns a descending rearrangement of its input. |
| Sorting.HeadIsLargest | src/server/services/calculators/cpp-calculator.ts:88 | The first element of a descending sequence is at least any of its elements. |
| Sorting.DescendingUnique | src/server/services/calculators/cpp-calculator.ts:88 | Two descending sequences with the same elements are equal. |
| Sorting.SortIsUnique | src/server/services/calculators/cpp-calculator.ts:88 | The sort gives the one descending arrangement of its input. |
| CppCalculator.ContributoryYears | src/server/services/calculators/cpp-calculator.ts:71-77 | Contributory years are the difference of calendar years, capped at 39. |
| CppCalculator.DropoutYears | src/server/services/calculators/cpp-calculator.ts:40 | The dropout is the floor of 17% of the contributory years. It is 0..6 for 0..39 contributory years. |
| CppCalculator.SliceLength | src/server/services/calculators/cpp-calculator.ts:91 | `slice(0, end)` keeps min(end, len) elements for end >= 0, and len + end (at least 0) for a negative end. |
| CppCalculator.KeptCount | src/server/services/calculators/cpp-calculator.ts:91 | When the dropout is between 0 and n, n - dropout years are kept. When the dropout is 0 or less, all n are kept. |
| CppCalculator.NothingKept | src/server/services/calculators/cpp-calculator.ts:91-94 | The average has no years to divide by exactly when there are no earnings, when the dropout equals the number of years, or when it is at least twice that number. |
| CppCalculator.Cap | src/server/services/calculators/cpp-calculator.ts:85 | Each year's earnings are replaced by the smaller of them and the YMPE. |
| CppCalculator.CapRespectsRearrangement | src/server/services/calculators/cpp-calculator.ts:85 | Capping rearranged earnings gives a rearrangement of the capped earnings. |
| CppCalculator.SplitEarnings | src/server/services/calculators/cpp-calculator.ts:85-91 | The kept part has the kept count of elements. Kept and dropped together are exactly the capped earnings. The kept part is descending and within the YMPE. No dropped year exceeds a kept year. |
| CppCalculator.AverageEarnings | src/server/services/calculators/cpp-calculator.ts:79-95 | The average of the kept years never exceeds the YMPE. Its exact value is stated by AverageOfTopYears. |
| CppCalculator.AverageWithinKept | src/server/services/calculators/cpp-calculator.ts:88-94 | The average lies between the smallest and largest kept year, and no dropped year exceeds it. |
| CppCalculator.AverageOfTopYears | src/server/services/calculators/cpp-calculator.ts:85-94 | The average is the sum of the kept-count largest capped years divided by that count. Those years may be taken from any descending arrangement of the capped earnings. |
| CppCalculator.MeanBounds | src/server/services/calculators/cpp-calculator.ts:94 | The mean of a descending sequence lies between its last and first elements, so within any bound on them. |
| CppCalculator.MeanBetween | src/server/services/calculators/cpp-calculator.ts:94 | The mean of values between two bounds lies between them. |
| CppCalculator.AverageOrderIndependent | src/server/services/calculators/cpp-calculator.ts:79-95 | Listing the same earnings in another order gives the same average. |
| CppCalculator.AgeAt | src/server/services/calculators/cpp-calculator.ts:117-126 | The age is the number of birthdays reached: the age-th birthday falls on or before the reference date, and the next one after it. |
| CppCalculator.AgeIsYearDifference | src/server/services/calculators/cpp-calculator.ts:117-126 | The age is the year difference, minus one exactly when the reference date comes before the birthday within its year. |
| CppCalculator.AdjustmentFactor | src/server/services/calculators/cpp-calculator.ts:97-115 | The factor is 1 exactly at 65, and below 1 exactly before 65. |
| CppCalculator.AdjustmentStep | src/server/services/calculators/cpp-calculator.ts:106-114 | Each year of age changes the factor by 12 months' worth: 0.072 below 65, 0.084 from 65. |
| CppCalculator.AdjustmentMonotone | src/server/services/calculators/cpp-calculator.ts:97-115 | Retiring later never lowers the factor. |
| CppCalculator.AdjustmentSign | src/server/services/calculators/cpp-calculator.ts:106-110 | The reduction has no floor: the factor is at most 0 for retirement at 51 or earlier, and positive from 52. |
| CppCalculator.Assemble | src/server/services/calculators/cpp-calculator.ts:55-68 | The yearly benefit is 25% of the average times the adjustment factor, paid in twelve equal monthly parts. The factor, years and average are reported as given. |
| CppCalculator.CalculateBenefit | src/server/services/calculators/cpp-calculator.ts:24-69 | Contributory years are the calendar-year difference capped at 39. The dropout is 17% of them, rounded down. The average is the dropout average of the given earnings under the ceiling in force: the caller's, or the 2024 YMPE of 68500. It never exceeds that ceiling. The factor is the adjustment for the exact age at the retirement date, and is 1 exactly at 65. The yearly benefit is 25% of the average times the factor, and the monthly benefit is a twelfth of it. |

## Left out

- The tRPC and Prisma plumbing:
  - the plan queries;
  - the saved-calculation listing and deletion;
  - `savedCalculation.create`;
  - the `TRPCError` wrapping;
  - session checks.

  These are database and network I/O. The looked-up plans are an input
  sequence in the order the query returns them.
- The React components, pages, authentication and health check: UI and
  external services.
- IEEE-754 doubles. The model uses exact reals, so results that differ from
  the double computation only by rounding are not modelled. One case that
  matters: `Math.floor(c * 0.17)` for some negative multiples of 100
  contributory years, e.g. -300, where the double product lies just below
  the exact integer.
- JavaScript `Date`. Dates are (year, month, day) triples. Time zones,
  0-based months and normalisation of out-of-range days are not modelled.
- Non-integer ages and service. The input schema accepts any number; the
  model takes whole years, as the forms supply.
- Benefits.CalculateBenefit: requires a non-zero salary in every branch that
  divides by it. JavaScript gives `Infinity` or `NaN` there, which exact
  reals cannot represent.
- Benefits.CalculateBenefits: requires the same of every looked-up plan, for
  the same reason.
- Detailed.CalculateDetailedBenefit: requires a non-zero salary, since the
  ratio is always divided by it.
- Projections.CalculateProjections: requires two things for the plans
  present, and only when the timeline has at least one age. For a DC plan
  with a match, the return must be non-zero. For DB or CPP values
  discounted before the retirement age, the return must not be -100%.
  Without these, JavaScript divides by zero and gives `NaN` or `Infinity`.
  A current age past the retirement age gives an empty timeline, with no
  division and no requirement.
- CppCalculator.CalculateBenefit: requires at least one kept year, because
  the source's average divides by the kept count and gives `NaN` or
  `Infinity` for an empty list.
- CppCalculator.AverageEarnings: requires at least one kept year, for the
  same reason.
- CppCalculator.CalculateBenefit: the three date fields are whatever the
  caller passes. The model does not check that the dates are in calendar
  order, and neither does the source.

## Findings

| source | as written | input that shows it | evidently intended | confidence | as-written member | corrected member |
|---|---|---|---|---|---|---|
| src/server/api/routers/pension.ts:327-378 | Each timeline point is one record. It starts as `{ age }`, and every plan's rounded value is then written under the plan's name in that same record. | A CPP plan named "age". Current and retirement age 65, salary 50000, return 5%, salary growth 2%. The point for age 65 holds 15679 under "age" instead of 65. | The point's age and the plans' values do not collide. The age stays `currentAge + i` whatever the plans are called. | not executed | Projections.AgeKeyClobbered | Projections.CalculateProjections |

=== FILE: benefits.dfy ===
/** The per-plan estimate of the `calculateBenefits` mutation
    (src/server/api/routers/pension.ts, lines 71-114): a switch on the plan
    type producing a monthly benefit, a yearly benefit and a replacement
    ratio, and the record of results keyed by plan id. */
module Benefits {
  import opened Numeric
  import opened Plans
  import opened Keyed

  datatype BenefitResult = BenefitResult(
    monthlyBenefit: real,
    yearlyBenefit: real,
    replacementRatio: real)

  /** Assumed yearly growth factor of a DC account in this calculator (5%). */
  const SimpleDcGrowth: real := 1.05

  /** The replacement ratio is finite: a zero salary is only harmless when
      the branch never divides by it, which is when a DB or DC plan lacks its
      rate and keeps the initial zeros. */
  predicate SalaryUsable(plan: Plan, s: Scenario)
  {
    HasRate(plan) ==> s.currentSalary != 0.0
  }

  /** The yearly DC payout: employee and employer each contribute
      `salary * match`, the sum grows at `growth` per year for `years` years
      (negative when the retirement age is below the current age) and 4% of
      the total is withdrawn each year. */
  function DcYearly(salary: real, employerMatch: real, years: int, growth: real): (yearly: real)
    requires growth > 0.0
    ensures salary * employerMatch == 0.0 <==> yearly == 0.0
    ensures salary * employerMatch > 0.0 <==> yearly > 0.0
  {
    var growthFactor := IntPow(growth, years);
    PositiveScale(salary * employerMatch, 2.0 * growthFactor * WithdrawalRate);
    assert salary * (employerMatch * 2.0) * growthFactor * WithdrawalRate
           == (salary * employerMatch) * (2.0 * growthFactor * WithdrawalRate);
    salary * (employerMatch * 2.0) * growthFactor * WithdrawalRate
  }

  /** Scaling by a positive factor keeps the sign. */
  lemma PositiveScale(x: real, k: real)
    requires k > 0.0
    ensures x == 0.0 <==> x * k == 0.0
    ensures x > 0.0 <==> x * k > 0.0
  {
  }

  /** Cancelling the salary in `yearly / salary`. */
  lemma DivCancel(salary: real, x: real)
    requires salary != 0.0
    ensures (salary * x) / salary == x
  {
  }

  /** Monthly amount and replacement ratio derived from a yearly amount, as
      every branch but CPP does. */
  function FromYearly(yearly: real, salary: real): (r: BenefitResult)
    requires salary != 0.0
    ensures r.yearlyBenefit == yearly
    ensures r.monthlyBenefit * 12.0 == yearly
    ensures r.replacementRatio * salary == yearly * 100.0
  {
    BenefitResult(yearly / 12.0, yearly, (yearly / salary) * 100.0)
  }

  /** One plan's estimate. */
  function CalculateBenefit(plan: Plan, s: Scenario): (r: BenefitResult)
    requires SalaryUsable(plan, s)
    ensures !HasRate(plan) ==> r == BenefitResult(0.0, 0.0, 0.0)
    ensures HasRate(plan) ==>
              && r.monthlyBenefit * 12.0 == r.yearlyBenefit
              && r.replacementRatio * s.currentSalary == r.yearlyBenefit * 100.0
    ensures plan.planType == DefinedBenefit && Truthy(plan.accrualRate) ==>
              && r.yearlyBenefit == s.currentSalary * plan.accrualRate.value * s.yearsOfService as real
              && r.replacementRatio == plan.accrualRate.value * s.yearsOfService as real * 100.0
    ensures plan.planType == DefinedContribution && Truthy(plan.employerMatch) ==>
              r.yearlyBenefit == DcYearly(s.currentSalary, plan.employerMatch.value,
                                          s.retirementAge - s.currentAge, SimpleDcGrowth)
    ensures plan.planType == Cpp ==>
              && r.monthlyBenefit == MaxCppMonthly * SimpleCppFactor(s.retirementAge)
              && r.yearlyBenefit == 12.0 * MaxCppMonthly * SimpleCppFactor(s.retirementAge)
    ensures plan.planType == Other ==>
              && r.yearlyBenefit == s.currentSalary * FallbackAccrual * s.yearsOfService as real
              && r.replacementRatio == FallbackAccrual * s.yearsOfService as real * 100.0
  {
    var salary := s.currentSalary;
    match plan.planType
    case DefinedBenefit =>
      if Truthy(plan.accrualRate) then
        var rate := plan.accrualRate.value;
        DivCancel(salary, rate * s.yearsOfService as real);
        FromYearly(salary * rate * s.yearsOfService as real, salary)
      else BenefitResult(0.0, 0.0, 0.0)
    case DefinedContribution =>
      if Truthy(plan.employerMatch) then
        FromYearly(DcYearly(salary, plan.employerMatch.value,
                            s.retirementAge - s.currentAge, SimpleDcGrowth), salary)
      else BenefitResult(0.0, 0.0, 0.0)
    case Cpp =>
      var monthly := MaxCppMonthly * SimpleCppFactor(s.retirementAge);
      var yearly := monthly * 12.0;
      BenefitResult(monthly, yearly, (yearly / salary) * 100.0)
    case Other =>
      DivCancel(salary, FallbackAccrual * s.yearsOfService as real);
      FromYearly(salary * FallbackAccrual * s.yearsOfService as real, salary)
  }

  /** The ids of the looked-up plans, in the order they are visited. */
  function Ids(plans: seq<Plan>): (ids: seq<string>)
    ensures |ids| == |plans|
    ensures forall i :: 0 <= i < |plans| ==> ids[i] == plans[i].id
  {
    seq(|plans|, i requires 0 <= i < |plans| => plans[i].id)
  }

  /** The mutation's result: one estimate per plan, keyed by plan id; a later
      plan with an id already seen replaces the earlier estimate. */
  function CalculateBenefits(plans: seq<Plan>, s: Scenario): (results: map<string, BenefitResult>)
    requires forall i :: 0 <= i < |plans| ==> SalaryUsable(plans[i], s)
    ensures results.Keys == set i | 0 <= i < |plans| :: plans[i].id
    ensures forall i :: IsLastIndex(Ids(plans), i) ==> results[plans[i].id] == CalculateBenefit(plans[i], s)
  {
    var estimates := seq(|plans|, i requires 0 <= i < |plans| => CalculateBenefit(plans[i], s));
    LastWins(Ids(plans), estimates)
  }
}

=== FILE: cpp_calculator.dfy ===
/** The standalone CPP retirement-benefit calculator
    (src/server/services/calculators/cpp-calculator.ts): contributory
    years capped at 39, the 17% dropout of the lowest years, earnings capped
    at the YMPE (Year's Maximum Pensionable Earnings) and averaged, and the
    early/late adjustment of 0.6% per month before 65 and 0.7% per month
    after. */
module CppCalculator {
  import opened Wrappers
  import opened Numeric
  import opened Sorting

  const MaxContributoryPeriod: int := 39
  const DropoutPercentage: real := 0.17
  const ReplacementRate: real := 0.25
  /** The 2024 YMPE, used when the caller gives no earnings ceiling. */
  const Ympe2024: real := 68500.0
  const NormalRetirementAge: int := 65
  const EarlyReductionPerMonth: real := 0.006
  const LateIncreasePerMonth: real := 0.007

  /** A calendar date. Only the differences of months are used, so the
      numbering of months does not matter. */
  datatype Date = Date(year: int, month: int, day: int)

  datatype CppParams = CppParams(
    birthDate: Date,
    startContributingDate: Date,
    retirementDate: Date,
    yearlyEarnings: seq<real>,
    averageIndustrialWage: Option<real>)

  datatype CppBenefitResult = CppBenefitResult(
    monthlyBenefit: real,
    yearlyBenefit: real,
    adjustmentFactor: real,
    contributionYears: int,
    dropoutYears: int,
    averageEarnings: real)

  /** Years between the calendar years of the two dates, at most 39. */
  function ContributoryYears(startDate: Date, endDate: Date): (years: int)
    ensures years <= MaxContributoryPeriod
    ensures years <= endDate.year - startDate.year
    ensures years == MaxContributoryPeriod || years == endDate.year - startDate.year
  {
    MinInt(endDate.year - startDate.year, MaxContributoryPeriod)
  }

  /** `Math.floor(contributionYears * 0.17)`. With the divisor positive,
      integer division rounds down, so this is `floor(17 * years / 100)`. */
  function DropoutYears(contributionYears: int): (dropout: int)
    ensures dropout as real <= contributionYears as real * DropoutPercentage < dropout as real + 1.0
    ensures 0 <= contributionYears <= MaxContributoryPeriod ==> 0 <= dropout <= 6
  {
    var dropout := (contributionYears * 17) / 100;
    assert dropout * 100 <= contributionYears * 17 < dropout * 100 + 100;
    assert (dropout * 100) as real <= (contributionYears * 17) as real < (dropout * 100 + 100) as real;
    dropout
  }

  /** The length of `xs.slice(0, end)` for an array of length `len`: a
      negative `end` counts back from the end of the array. */
  function SliceLength(len: nat, end: int): (n: nat)
    ensures n <= len
    ensures 0 <= end ==> n == MinInt(end, len)
    ensures end < 0 ==> n == if len + end > 0 then len + end else 0
  {
    if end < 0 then (if len + end > 0 then len + end else 0)
    else MinInt(end, len)
  }

  /** How many of `n` yearly earnings `slice(0, n - dropout)` keeps. */
  function KeptCount(n: nat, dropout: int): (kept: nat)
    ensures 0 <= dropout <= n ==> kept == n - dropout
    ensures dropout <= 0 ==> kept == n
  {
    SliceLength(n, n - dropout)
  }

  /** Nothing is kept, and the average divides by zero, exactly when there
      are no earnings, when the dropout equals their number, or when it is
      so large that the negative slice end reaches past the start. */
  lemma NothingKept(n: nat, dropout: int)
    ensures KeptCount(n, dropout) == 0 <==> (n == 0 || dropout == n || 2 * n <= dropout)
  {
  }

  /** Each yearly earning capped at the YMPE. */
  function Cap(earnings: seq<real>, ympe: real): (capped: seq<real>)
    ensures |capped| == |earnings|
    ensures forall i :: 0 <= i < |earnings| ==> capped[i] == Min(earnings[i], ympe)
  {
    seq(|earnings|, i requires 0 <= i < |earnings| => Min(earnings[i], ympe))
  }

  lemma CapConcat(u: seq<real>, v: seq<real>, ympe: real)
    ensures Cap(u + v, ympe) == Cap(u, ympe) + Cap(v, ympe)
  {
  }

  /** Capping acts on each element alone, so it maps rearrangements of the
      earnings to rearrangements of the capped earnings. */
  lemma {:induction false} CapRespectsRearrangement(a: seq<real>, b: seq<real>, ympe: real)
    requires multiset(a) == multiset(b)
    ensures multiset(Cap(a, ympe)) == multiset(Cap(b, ympe))
    decreases |a|
  {
    assert |a| == |multiset(a)| == |multiset(b)| == |b|;
    if |a| > 0 {
      var x := a[0];
      assert x in multiset(b);
      var j :| 0 <= j < |b| && b[j] == x;
      var front, back := b[..j], b[j + 1..];
      assert b == front + [x] + back;
      assert a == [x] + a[1..];
      assert multiset(a) == multiset{x} + multiset(a[1..]);
      assert multiset(b) == multiset(front) + multiset{x} + multiset(back);
      assert multiset(front + back) == multiset(front) + multiset(back);
      assert multiset(a[1..]) == multiset(a) - multiset{x};
      assert (multiset(front) + multiset{x} + multiset(back)) - multiset{x}
             == multiset(front) + multiset(back);
      assert multiset(a[1..]) == multiset(front + back);
      CapRespectsRearrangement(a[1..], front + back, ympe);
      CapMoveOne(x, a[1..], front, back, ympe);
    }
  }

  /** Moving one element to the front on both sides of a capped rearrangement. */
  lemma CapMoveOne(x: real, rest: seq<real>, front: seq<real>, back: seq<real>, ympe: real)
    requires multiset(Cap(rest, ympe)) == multiset(Cap(front + back, ympe))
    ensures multiset(Cap([x] + rest, ympe)) == multiset(Cap(front + [x] + back, ympe))
  {
    var cx := Cap([x], ympe);
    CapConcat([x], rest, ympe);
    CapConcat(front + [x], back, ympe);
    CapConcat(front, [x], ympe);
    CapConcat(front, back, ympe);
    assert multiset(Cap([x] + rest, ympe)) == multiset(cx) + multiset(Cap(rest, ympe));
    assert multiset(Cap(front + [x] + back, ympe))
           == multiset(Cap(front, ympe)) + multiset(cx) + multiset(Cap(back, ympe));
  }

  /** Every element of `s` is at most `m` when every element of a
      rearrangement of it is. */
  lemma BoundCarries(s: seq<real>, t: seq<real>, m: real)
    requires multiset(s) == multiset(t)
    requires forall i :: 0 <= i < |t| ==> t[i] <= m
    ensures forall i :: 0 <= i < |s| ==> s[i] <= m
  {
    forall i | 0 <= i < |s| ensures s[i] <= m {
      assert s[i] in multiset(t);
    }
  }

  /** The capped earnings sorted largest first and cut by `slice(0, n -
      dropout)`: the kept part and the dropped rest. */
  function SplitEarnings(earnings: seq<real>, dropout: int, ympe: real): (split: (seq<real>, seq<real>))
    ensures |split.0| == KeptCount(|earnings|, dropout)
    ensures multiset(split.0) + multiset(split.1) == multiset(Cap(earnings, ympe))
    ensures Descending(split.0)
    ensures forall i :: 0 <= i < |split.0| ==> split.0[i] <= ympe
    ensures forall i, j :: 0 <= i < |split.0| && 0 <= j < |split.1| ==> split.1[j] <= split.0[i]
  {
    var capped := Cap(earnings, ympe);
    var sorted := SortDescending(capped);
    var k := KeptCount(|earnings|, dropout);
    CutSorted(sorted, capped, k, ympe);
    (sorted[..k], sorted[k..])
  }

  /** Cutting a sorted rearrangement of values bounded by `m` at `k`. */
  lemma CutSorted(sorted: seq<real>, capped: seq<real>, k: nat, m: real)
    requires Descending(sorted) && multiset(sorted) == multiset(capped)
    requires forall i :: 0 <= i < |capped| ==> capped[i] <= m
    requires k <= |sorted|
    ensures multiset(sorted[..k]) + multiset(sorted[k..]) == multiset(capped)
    ensures Descending(sorted[..k])
    ensures forall i :: 0 <= i < k ==> sorted[..k][i] <= m
    ensures forall i, j :: 0 <= i < k && 0 <= j < |sorted| - k ==> sorted[k..][j] <= sorted[..k][i]
  {
    assert sorted == sorted[..k] + sorted[k..];
    BoundCarries(sorted, capped, m);
    forall i, j | 0 <= i < k && 0 <= j < |sorted| - k ensures sorted[k..][j] <= sorted[..k][i] {
      assert sorted[k..][j] == sorted[k + j] && sorted[..k][i] == sorted[i];
    }
  }

  lemma DivAtMost(sum: real, n: real, m: real)
    requires n > 0.0 && sum <= n * m
    ensures sum / n <= m
  {
  }

  lemma DivAtLeast(sum: real, n: real, m: real)
    requires n > 0.0 && n * m <= sum
    ensures m <= sum / n
  {
  }

  /** The mean of the kept earnings, which never exceeds the YMPE. */
  function AverageEarnings(earnings: seq<real>, dropout: int, ympe: real): (average: real)
    requires KeptCount(|earnings|, dropout) > 0
    ensures average <= ympe
  {
    var (kept, dropped) := SplitEarnings(earnings, dropout, ympe);
    MeanBounds(kept, ympe);
    Sum(kept) / |kept| as real
  }

  /** The average lies between the smallest and the largest kept year, and
      no dropped year is above it: the dropout removes the lowest years. */
  lemma AverageWithinKept(earnings: seq<real>, dropout: int, ympe: real)
    requires KeptCount(|earnings|, dropout) > 0
    ensures var (kept, dropped) := SplitEarnings(earnings, dropout, ympe);
            var average := AverageEarnings(earnings, dropout, ympe);
            && kept[|kept| - 1] <= average <= kept[0]
            && forall j :: 0 <= j < |dropped| ==> dropped[j] <= average
  {
    var (kept, dropped) := SplitEarnings(earnings, dropout, ympe);
    MeanBounds(kept, ympe);
  }

  /** The average is the plain mean of the kept count of largest capped
      years, taken from any arrangement of the capped earnings from largest
      to smallest. */
  lemma AverageOfTopYears(earnings: seq<real>, dropout: int, ympe: real, sorted: seq<real>)
    requires Descending(sorted) && multiset(sorted) == multiset(Cap(earnings, ympe))
    requires KeptCount(|earnings|, dropout) > 0
    ensures var kept := KeptCount(|earnings|, dropout);
            && kept <= |sorted|
            && AverageEarnings(earnings, dropout, ympe) == Sum(sorted[..kept]) / kept as real
  {
    var capped := Cap(earnings, ympe);
    assert |sorted| == |multiset(sorted)| == |multiset(capped)| == |earnings|;
    SortIsUnique(capped, sorted);
  }

  /** The mean of a non-empty descending sequence bounded by `m` lies
      between its last and first elements, and so at most `m`. */
  lemma MeanBounds(xs: seq<real>, m: real)
    requires |xs| > 0 && Descending(xs)
    requires forall i :: 0 <= i < |xs| ==> xs[i] <= m
    ensures Sum(xs) / |xs| as real <= m
    ensures xs[|xs| - 1] <= Sum(xs) / |xs| as real <= xs[0]
  {
    FirstAndLastBound(xs);
    MeanBetween(xs, xs[|xs| - 1], xs[0]);
    assert xs[0] <= m;
  }

  /** The mean of values between `lo` and `hi` is between them too. */
  lemma MeanBetween(xs: seq<real>, lo: real, hi: real)
    requires |xs| > 0
    requires forall i :: 0 <= i < |xs| ==> lo <= xs[i] <= hi
    ensures lo <= Sum(xs) / |xs| as real <= hi
  {
    SumAtMost(xs, hi);
    SumAtLeast(xs, lo);
    MeanWithin(Sum(xs), |xs| as real, lo, hi);
  }

  /** In a descending sequence every element lies between the last and the first. */
  lemma FirstAndLastBound(xs: seq<real>)
    requires |xs| > 0 && Descending(xs)
    ensures forall i :: 0 <= i < |xs| ==> xs[|xs| - 1] <= xs[i] <= xs[0]
  {
  }

  lemma MeanWithin(sum: real, n: real, lo: real, hi: real)
    requires n > 0.0 && n * lo <= sum <= n * hi
    ensures lo <= sum / n <= hi
  {
    DivAtMost(sum, n, hi);
    DivAtLeast(sum, n, lo);
  }

  /** The average depends only on which earnings there are, not on the
      order in which the years are listed. */
  lemma AverageOrderIndependent(a: seq<real>, b: seq<real>, dropout: int, ympe: real)
    requires multiset(a) == multiset(b)
    requires KeptCount(|a|, dropout) > 0
    ensures |a| == |b|
    ensures AverageEarnings(a, dropout, ympe) == AverageEarnings(b, dropout, ympe)
  {
    assert |a| == |multiset(a)| == |multiset(b)| == |b|;
    CapRespectsRearrangement(a, b, ympe);
    DescendingUnique(SortDescending(Cap(a, ympe)), SortDescending(Cap(b, ympe)));
  }

  /** `a` falls on or before `b` in calendar order. */
  predicate OnOrBefore(a: Date, b: Date)
  {
    a.year < b.year
    || (a.year == b.year && (a.month < b.month || (a.month == b.month && a.day <= b.day)))
  }

  /** The `years`-th birthday of someone born on `birth`. */
  function Anniversary(birth: Date, years: int): Date
  {
    Date(birth.year + years, birth.month, birth.day)
  }

  /** Age in whole years on `reference`: the number of birthdays reached. */
  function AgeAt(birth: Date, reference: Date): (age: int)
    ensures OnOrBefore(Anniversary(birth, age), reference)
    ensures !OnOrBefore(Anniversary(birth, age + 1), reference)
  {
    var age := reference.year - birth.year;
    var monthDiff := reference.month - birth.month;
    if monthDiff < 0 || (monthDiff == 0 && reference.day < birth.day) then age - 1 else age
  }

  /** The age is the difference of calendar years, one less exactly when
      the reference date falls earlier in its year than the birthday. */
  lemma AgeIsYearDifference(birth: Date, reference: Date)
    ensures AgeAt(birth, reference) == reference.year - birth.year - 1
            <==> OnOrBefore(Date(reference.year, reference.month, reference.day + 1),
                            Date(reference.year, birth.month, birth.day))
    ensures AgeAt(birth, reference) == reference.year - birth.year
            || AgeAt(birth, reference) == reference.year - birth.year - 1
  {
  }

  /** Early/late adjustment of the benefit for retiring at `age`. */
  function AdjustmentFactor(age: int): (factor: real)
    ensures factor == 1.0 <==> age == NormalRetirementAge
    ensures factor < 1.0 <==> age < NormalRetirementAge
  {
    if age == NormalRetirementAge then 1.0
    else if age < NormalRetirementAge then
      var monthsEarly := (NormalRetirementAge - age) * 12;
      1.0 - EarlyReductionPerMonth * monthsEarly as real
    else
      var monthsLate := (age - NormalRetirementAge) * 12;
      1.0 + LateIncreasePerMonth * monthsLate as real
  }

  /** Each year of age moves the factor by twelve months' worth: 7.2
      points a year up to 65 and 8.4 points a year after. */
  lemma AdjustmentStep(age: int)
    ensures AdjustmentFactor(age + 1) - AdjustmentFactor(age)
            == if age < NormalRetirementAge then 0.072 else 0.084
  {
  }

  /** Retiring later never lowers the factor. */
  lemma {:induction false} AdjustmentMonotone(a: int, b: int)
    requires a <= b
    ensures AdjustmentFactor(a) <= AdjustmentFactor(b)
    decreases b - a
  {
    if a < b {
      AdjustmentStep(a);
      AdjustmentMonotone(a + 1, b);
    }
  }

  /** The reduction has no floor: the factor is zero or negative for
      retirement at 51 or earlier, and positive from 52. */
  lemma AdjustmentSign(age: int)
    ensures age <= 51 ==> AdjustmentFactor(age) <= 0.0
    ensures age >= 52 ==> AdjustmentFactor(age) > 0.0
  {
  }

  /** The ceiling in force: the caller's, or the 2024 YMPE when none is given. */
  function EffectiveYmpe(p: CppParams): real
  {
    p.averageIndustrialWage.GetOr(Ympe2024)
  }

  function DropoutFor(p: CppParams): int
  {
    DropoutYears(ContributoryYears(p.startContributingDate, p.retirementDate))
  }

  /** The CPP benefit for the given history. The source divides by the
      number of kept years, so at least one must be kept. */
  function CalculateBenefit(p: CppParams): (r: CppBenefitResult)
    requires KeptCount(|p.yearlyEarnings|, DropoutFor(p)) > 0
    ensures r.contributionYears == ContributoryYears(p.startContributingDate, p.retirementDate)
    ensures r.contributionYears <= MaxContributoryPeriod
    ensures r.dropoutYears == DropoutYears(r.contributionYears)
    ensures r.averageEarnings == AverageEarnings(p.yearlyEarnings, r.dropoutYears, EffectiveYmpe(p))
    ensures r.averageEarnings <= EffectiveYmpe(p)
    ensures r.adjustmentFactor == AdjustmentFactor(AgeAt(p.birthDate, p.retirementDate))
    ensures r.adjustmentFactor == 1.0 <==> AgeAt(p.birthDate, p.retirementDate) == NormalRetirementAge
    ensures YearlyIsAdjustedQuarterOfAverage(r)
  {
    var contributionYears := ContributoryYears(p.startContributingDate, p.retirementDate);
    var dropoutYears := DropoutYears(contributionYears);
    var averageEarnings := AverageEarnings(p.yearlyEarnings, dropoutYears, EffectiveYmpe(p));
    var adjustmentFactor := AdjustmentFactor(AgeAt(p.birthDate, p.retirementDate));
    Assemble(averageEarnings, adjustmentFactor, contributionYears, dropoutYears)
  }

  /** The yearly benefit is 25% of the average earnings times the
      adjustment factor, and is paid in twelve equal monthly parts. */
  predicate YearlyIsAdjustedQuarterOfAverage(r: CppBenefitResult)
  {
    && r.yearlyBenefit == r.averageEarnings * ReplacementRate * r.adjustmentFactor
    && r.monthlyBenefit * 12.0 == r.yearlyBenefit
  }

  /** The result record: 25% of the average earnings, adjusted, paid
      yearly and in twelve monthly parts. */
  function Assemble(averageEarnings: real, adjustmentFactor: real, contributionYears: int, dropoutYears: int)
    : (r: CppBenefitResult)
    ensures YearlyIsAdjustedQuarterOfAverage(r)
    ensures r.averageEarnings == averageEarnings && r.adjustmentFactor == adjustmentFactor
    ensures r.contributionYears == contributionYears && r.dropoutYears == dropoutYears
  {
    var baseBenefit := averageEarnings * ReplacementRate;
    var adjustedBenefit := baseBenefit * adjustmentFactor;
    CppBenefitResult(adjustedBenefit / 12.0, adjustedBenefit, adjustmentFactor,
                     contributionYears, dropoutYears, averageEarnings)
  }
}

=== FILE: detailed.dfy ===
/** The single-plan estimate of the `calculateDetailedBenefits` mutation
    (src/server/api/routers/pension.ts, lines 166-211): total contributions
    for every plan type, and for a defined-benefit plan an optional bridge
    benefit and an optional early-retirement penalty. */
module Detailed {
  import opened Wrappers
  import opened Numeric
  import opened Plans
  import opened Benefits

  datatype DetailedResult = DetailedResult(
    monthlyBenefit: real,
    yearlyBenefit: real,
    totalContributions: real,
    replacementRatio: real,
    bridgeBenefit: Option<real>,
    earlyRetirementPenalty: Option<real>)

  /** Assumed yearly growth factor of a DC account in this calculator (6%,
      against 5% in the simple calculator). */
  const DetailedDcGrowth: real := 1.06

  /** Share of salary assumed contributed each year: 10% for a DB plan, 5%
      for every other type. */
  function ContributionRate(plan: Plan): real
  {
    if plan.planType == DefinedBenefit then 0.10 else 0.05
  }

  /** Bridge benefit as a share of the pre-penalty yearly benefit. */
  const BridgeRate: real := 0.2

  /** Penalty per year of retirement before the plan's normal age. */
  const PenaltyPerEarlyYear: real := 0.05

  /** Age at which the bridge benefit stops: it is paid only to those who
      retire before it. */
  const BridgeEndAge: int := 65

  /** The plan pays a bridge benefit to this scenario. */
  predicate BridgePaid(plan: Plan, s: Scenario)
  {
    plan.bridgeBenefit && s.retirementAge < BridgeEndAge
  }

  /** The early-retirement penalty applies: the plan has a truthy early
      retirement age and the user retires before the plan's normal age. */
  predicate PenaltyApplies(plan: Plan, s: Scenario)
  {
    TruthyInt(plan.earlyRetirementAge) && s.retirementAge < plan.retirementAge
  }

  function EarlyYears(plan: Plan, s: Scenario): int
  {
    plan.retirementAge - s.retirementAge
  }

  /** Yearly benefit, bridge benefit and penalty of one switch branch. */
  datatype Branch = Branch(yearly: real, bridge: Option<real>, penalty: Option<real>)

  /** The defined-benefit branch with a truthy accrual rate, in source order:
      the pre-penalty benefit, then the bridge from it, then the penalty
      from it, subtracted last. */
  function DbBranch(plan: Plan, s: Scenario): (b: Branch)
    requires Truthy(plan.accrualRate)
    ensures var pre := s.currentSalary * plan.accrualRate.value * s.yearsOfService as real;
            && (b.bridge.Some? <==> BridgePaid(plan, s))
            && (b.bridge.Some? ==> b.bridge.value == BridgeRate * pre)
            && (b.penalty.Some? <==> PenaltyApplies(plan, s))
            && (b.penalty.Some? ==> b.penalty.value == pre * PenaltyPerEarlyYear * EarlyYears(plan, s) as real)
            && b.yearly == pre - b.penalty.GetOr(0.0)
  {
    var pre := s.currentSalary * plan.accrualRate.value * s.yearsOfService as real;
    var bridge := if BridgePaid(plan, s) then Some(pre * BridgeRate) else None;
    var penalty := if PenaltyApplies(plan, s)
                   then Some(pre * (PenaltyPerEarlyYear * EarlyYears(plan, s) as real))
                   else None;
    Branch(pre - penalty.GetOr(0.0), bridge, penalty)
  }

  /** The switch on the plan type. It has no default branch, so a plan of
      any other type keeps a yearly benefit of 0. */
  function SwitchBranch(plan: Plan, s: Scenario): (b: Branch)
    ensures b.bridge.Some? || b.penalty.Some? ==>
              plan.planType == DefinedBenefit && Truthy(plan.accrualRate)
    ensures plan.planType == DefinedBenefit && Truthy(plan.accrualRate) ==> b == DbBranch(plan, s)
    ensures plan.planType == DefinedContribution && Truthy(plan.employerMatch) ==>
              b.yearly == DcYearly(s.currentSalary, plan.employerMatch.value,
                                   s.retirementAge - s.currentAge, DetailedDcGrowth)
    ensures plan.planType == Cpp ==> b.yearly == MaxCppMonthly * SimpleCppFactor(s.retirementAge) * 12.0
    ensures !HasRate(plan) || plan.planType == Other ==> b.yearly == 0.0
  {
    match plan.planType
    case DefinedBenefit =>
      if Truthy(plan.accrualRate) then DbBranch(plan, s) else Branch(0.0, None, None)
    case DefinedContribution =>
      if Truthy(plan.employerMatch)
      then Branch(DcYearly(s.currentSalary, plan.employerMatch.value,
                           s.retirementAge - s.currentAge, DetailedDcGrowth), None, None)
      else Branch(0.0, None, None)
    case Cpp =>
      Branch(MaxCppMonthly * SimpleCppFactor(s.retirementAge) * 12.0, None, None)
    case Other =>
      Branch(0.0, None, None)
  }

  /** The figures recomputed after the switch: the monthly benefit and the
      replacement ratio follow the final yearly benefit. */
  function Finish(b: Branch, totalContributions: real, salary: real): (r: DetailedResult)
    requires salary != 0.0
    ensures r.yearlyBenefit == b.yearly
    ensures r.monthlyBenefit * 12.0 == b.yearly
    ensures r.replacementRatio * salary == b.yearly * 100.0
    ensures r.totalContributions == totalContributions
    ensures r.bridgeBenefit == b.bridge && r.earlyRetirementPenalty == b.penalty
  {
    var yearly := b.yearly;
    DetailedResult(yearly / 12.0, yearly, totalContributions, (yearly / salary) * 100.0,
                   b.bridge, b.penalty)
  }

  /** The detailed estimate. */
  function CalculateDetailedBenefit(plan: Plan, s: Scenario): (r: DetailedResult)
    requires s.currentSalary != 0.0
    ensures r.totalContributions
            == s.currentSalary * ContributionRate(plan)
               * (s.yearsOfService + s.retirementAge - s.currentAge) as real
    ensures r.monthlyBenefit * 12.0 == r.yearlyBenefit
    ensures r.replacementRatio * s.currentSalary == r.yearlyBenefit * 100.0
    ensures r.bridgeBenefit.Some? || r.earlyRetirementPenalty.Some? ==>
              plan.planType == DefinedBenefit && Truthy(plan.accrualRate)
    ensures plan.planType == DefinedBenefit && Truthy(plan.accrualRate) ==>
              var pre := CalculateBenefit(plan, s).yearlyBenefit;
              && (r.bridgeBenefit.Some? <==> BridgePaid(plan, s))
              && (r.bridgeBenefit.Some? ==> r.bridgeBenefit.value == BridgeRate * pre)
              && (r.earlyRetirementPenalty.Some? <==> PenaltyApplies(plan, s))
              && (r.earlyRetirementPenalty.Some? ==>
                    r.earlyRetirementPenalty.value == pre * PenaltyPerEarlyYear * EarlyYears(plan, s) as real)
              && r.yearlyBenefit == pre - r.earlyRetirementPenalty.GetOr(0.0)
    ensures plan.planType == DefinedContribution && Truthy(plan.employerMatch) ==>
              r.yearlyBenefit == DcYearly(s.currentSalary, plan.employerMatch.value,
                                          s.retirementAge - s.currentAge, DetailedDcGrowth)
    ensures plan.planType == Cpp ==>
              r.monthlyBenefit == MaxCppMonthly * SimpleCppFactor(s.retirementAge)
    ensures !HasRate(plan) || plan.planType == Other ==> r.yearlyBenefit == 0.0
  {
    var yearsUntilRetirement := s.retirementAge - s.currentAge;
    var totalContributions := s.currentSalary * ContributionRate(plan)
                              * (s.yearsOfService + yearsUntilRetirement) as real;
    Finish(SwitchBranch(plan, s), totalContributions, s.currentSalary)
  }

  /** With the penalty applied, the yearly benefit is the simple calculator's
      benefit scaled by `1 - 0.05 * earlyYears`, and the monthly benefit and
      replacement ratio follow the reduced amount. */
  lemma PenaltyScalesBenefit(plan: Plan, s: Scenario)
    requires s.currentSalary != 0.0
    requires plan.planType == DefinedBenefit && Truthy(plan.accrualRate)
    requires PenaltyApplies(plan, s)
    ensures var y := CalculateBenefit(plan, s).yearlyBenefit
                     * (1.0 - PenaltyPerEarlyYear * EarlyYears(plan, s) as real);
            var r := CalculateDetailedBenefit(plan, s);
            && r.yearlyBenefit == y
            && r.monthlyBenefit == y / 12.0
            && r.replacementRatio == y / s.currentSalary * 100.0
  {
    var r := CalculateDetailedBenefit(plan, s);
    var pre := CalculateBenefit(plan, s).yearlyBenefit;
    var k := PenaltyPerEarlyYear * EarlyYears(plan, s) as real;
    assert r.yearlyBenefit == pre - pre * k;
    assert pre - pre * k == pre * (1.0 - k);
  }

  /** The penalty has no floor: more than 20 early years turn a positive
      pre-penalty benefit into a negative yearly benefit. */
  lemma PenaltyHasNoFloor(plan: Plan, s: Scenario)
    requires s.currentSalary != 0.0
    requires plan.planType == DefinedBenefit && Truthy(plan.accrualRate)
    requires PenaltyApplies(plan, s) && EarlyYears(plan, s) > 20
    requires CalculateBenefit(plan, s).yearlyBenefit > 0.0
    ensures CalculateDetailedBenefit(plan, s).yearlyBenefit < 0.0
  {
    PenaltyScalesBenefit(plan, s);
    var pre := CalculateBenefit(plan, s).yearlyBenefit;
    var k := 1.0 - PenaltyPerEarlyYear * EarlyYears(plan, s) as real;
    assert k < 0.0;
    assert pre * k < 0.0;
  }

  /** Where no penalty applies, and for CPP plans, the detailed calculator
      agrees with the simple one on all three shared figures. */
  lemma AgreesWithSimpleWithoutPenalty(plan: Plan, s: Scenario)
    requires s.currentSalary != 0.0
    requires (plan.planType == DefinedBenefit && !PenaltyApplies(plan, s))
             || plan.planType == DefinedContribution
             || plan.planType == Cpp
    requires plan.planType == DefinedContribution ==> s.retirementAge == s.currentAge
    ensures var d := CalculateDetailedBenefit(plan, s);
            var b := CalculateBenefit(plan, s);
            && d.yearlyBenefit == b.yearlyBenefit
            && d.monthlyBenefit == b.monthlyBenefit
            && d.replacementRatio == b.replacementRatio
  {
    var d := CalculateDetailedBenefit(plan, s);
    var b := CalculateBenefit(plan, s);
    if HasRate(plan) {
      assert d.yearlyBenefit == b.yearlyBenefit;
      assert d.replacementRatio * s.currentSalary == b.replacementRatio * s.currentSalary;
    }
  }

  lemma ScaledMonotone(c: real, p: real, q: real, w: real)
    requires 0.0 <= c && 0.0 <= p <= q && 0.0 <= w
    ensures c * p * w <= c * q * w
  {
    MulBothMonotone(c, c, p, q);
    MulBothMonotone(c * p, c * q, w, w);
  }

  /** Over a non-negative number of years, a faster growth rate never
      gives a smaller DC benefit when the contributions are non-negative. */
  lemma DcYearlyGrowthMonotone(salary: real, employerMatch: real, n: nat, g1: real, g2: real)
    requires 0.0 < g1 <= g2 && salary * employerMatch >= 0.0
    ensures DcYearly(salary, employerMatch, n, g1) <= DcYearly(salary, employerMatch, n, g2)
  {
    PowMonotoneInBase(g1, g2, n);
    var c := salary * (employerMatch * 2.0);
    assert c == 2.0 * (salary * employerMatch);
    ScaledMonotone(c, Pow(g1, n), Pow(g2, n), WithdrawalRate);
  }

  /** For a retirement age not below the current age and non-negative
      contributions, the detailed calculator's 6% assumption never gives a
      smaller DC benefit than the simple calculator's 5%. */
  lemma DetailedDcAtLeastSimple(plan: Plan, s: Scenario)
    requires s.currentSalary != 0.0
    requires plan.planType == DefinedContribution && Truthy(plan.employerMatch)
    requires s.retirementAge >= s.currentAge
    requires s.currentSalary * plan.employerMatch.value >= 0.0
    ensures CalculateBenefit(plan, s).yearlyBenefit <= CalculateDetailedBenefit(plan, s).yearlyBenefit
  {
    var n := s.retirementAge - s.currentAge;
    DcYearlyGrowthMonotone(s.currentSalary, plan.employerMatch.value, n, SimpleDcGrowth, DetailedDcGrowth);
  }
}

=== FILE: keyed.dfy ===
/** Records keyed by a string that a loop fills in order, as in
    `results[plan.id] = …` or `dataPoint[plan.name] = …`: an assignment to a
    key that is already present replaces the earlier value. */
module Keyed {

  /** `i` is the last position in `keys` that holds the key `keys[i]`. */
  predicate IsLastIndex(keys: seq<string>, i: int)
  {
    0 <= i < |keys| && forall j :: i < j < |keys| ==> keys[j] != keys[i]
  }

  /** The record obtained by assigning `vals[i]` to `keys[i]` for each `i`
      from first to last. */
  function LastWins<V>(keys: seq<string>, vals: seq<V>): (m: map<string, V>)
    requires |keys| == |vals|
    ensures m.Keys == set i | 0 <= i < |keys| :: keys[i]
    ensures forall i :: IsLastIndex(keys, i) ==> m[keys[i]] == vals[i]
  {
    if |keys| == 0 then map[]
    else
      var n := |keys| - 1;
      var prev := LastWins(keys[..n], vals[..n]);
      LastWinsStep(keys, n);
      prev[keys[n] := vals[n]]
  }

  /** How the keys and last positions of `keys` relate to those of the
      prefix without its final entry. */
  lemma LastWinsStep(keys: seq<string>, n: nat)
    requires n + 1 == |keys|
    ensures (set i | 0 <= i < |keys| :: keys[i])
         == (set i | 0 <= i < n :: keys[..n][i]) + {keys[n]}
    ensures forall i :: IsLastIndex(keys, i) && i != n ==> IsLastIndex(keys[..n], i) && keys[..n][i] == keys[i] != keys[n]
  {
    var whole := set i | 0 <= i < |keys| :: keys[i];
    var front := set i | 0 <= i < n :: keys[..n][i];
    forall k | k in whole ensures k in front + {keys[n]} {
      var i :| 0 <= i < |keys| && keys[i] == k;
      if i < n { assert keys[..n][i] == k; }
    }
    forall k | k in front ensures k in whole {
      var i :| 0 <= i < n && keys[..n][i] == k;
      assert keys[i] == k;
    }
  }

  /** Extending the assignments by one entry performs one more assignment. */
  lemma LastWinsExtend<V>(keys: seq<string>, vals: seq<V>, j: nat)
    requires |keys| == |vals| && j < |keys|
    ensures LastWins(keys[..j + 1], vals[..j + 1]) == LastWins(keys[..j], vals[..j])[keys[j] := vals[j]]
  {
    assert keys[..j + 1][..j] == keys[..j] && vals[..j + 1][..j] == vals[..j];
  }

  /** Every key of the record has a last position, so every stored value is
      the one written by the last assignment to that key. */
  lemma {:induction false} EveryKeyHasLastIndex(keys: seq<string>, k: string)
    requires k in keys
    ensures exists i :: IsLastIndex(keys, i) && keys[i] == k
  {
    var n := |keys| - 1;
    if keys[n] == k {
      assert IsLastIndex(keys, n);
    } else {
      assert k in keys[..n] by {
        var j :| 0 <= j < |keys| && keys[j] == k;
        assert j < n && keys[..n][j] == k;
      }
      EveryKeyHasLastIndex(keys[..n], k);
      var i :| IsLastIndex(keys[..n], i) && keys[..n][i] == k;
      assert IsLastIndex(keys, i);
    }
  }
}

=== FILE: numeric.dfy ===
/** Exact-real stand-ins for the JavaScript arithmetic the calculators use:
    `Math.pow` with an integer exponent, `Math.round`, `Math.min` and the
    `reduce` sum of an array. */
module Numeric {

  /** `b` raised to a natural power. */
  function Pow(b: real, n: nat): (r: real)
    ensures b != 0.0 ==> r != 0.0
    ensures b > 0.0 ==> r > 0.0
  {
    if n == 0 then 1.0 else b * Pow(b, n - 1)
  }

  /** `Math.pow(b, n)` for an integer exponent that may be negative. */
  function IntPow(b: real, n: int): (r: real)
    requires b != 0.0 || n >= 0
    ensures n >= 0 ==> r == Pow(b, n)
    ensures n < 0 ==> r * Pow(b, -n) == 1.0
    ensures b > 0.0 ==> r > 0.0
  {
    if n >= 0 then Pow(b, n) else 1.0 / Pow(b, -n)
  }

  /** Raising a larger non-negative base to the same natural power never
      gives a smaller result. */
  lemma {:induction false} PowMonotoneInBase(a: real, b: real, n: nat)
    requires 0.0 <= a <= b
    ensures 0.0 <= Pow(a, n) <= Pow(b, n)
  {
    if n > 0 {
      PowMonotoneInBase(a, b, n - 1);
      MulBothMonotone(a, b, Pow(a, n - 1), Pow(b, n - 1));
    }
  }

  lemma MulBothMonotone(x: real, y: real, u: real, v: real)
    requires 0.0 <= x <= y && 0.0 <= u <= v
    ensures 0.0 <= x * u <= y * v
  {
    assert x * u <= y * u;
    assert y * u <= y * v;
  }

  function Min(a: real, b: real): (r: real)
    ensures r <= a && r <= b
    ensures r == a || r == b
  {
    if a <= b then a else b
  }

  /** `Math.min` on whole numbers (ages, years of service); `Min` above is
      the same operation on amounts. */
  function MinInt(a: int, b: int): (r: int)
    ensures r <= a && r <= b
    ensures r == a || r == b
  {
    if a <= b then a else b
  }

  /** `Math.round`: the nearest integer, halves rounded towards +infinity. */
  function Round(x: real): (r: int)
    ensures r as real - 0.5 <= x < r as real + 0.5
  {
    (x + 0.5).Floor
  }


  /** `xs.reduce((sum, x) => sum + x, 0)`: a left-to-right sum. */
  function Sum(xs: seq<real>): real
  {
    if |xs| == 0 then 0.0 else Sum(xs[..|xs| - 1]) + xs[|xs| - 1]
  }

  /** A sum of values that are each at most `m` is at most `|xs| * m`. */
  lemma {:induction false} SumAtMost(xs: seq<real>, m: real)
    requires forall i :: 0 <= i < |xs| ==> xs[i] <= m
    ensures Sum(xs) <= |xs| as real * m
  {
    if |xs| > 0 {
      SumAtMost(xs[..|xs| - 1], m);
    }
  }

  /** A sum of values that are each at least `m` is at least `|xs| * m`. */
  lemma {:induction false} SumAtLeast(xs: seq<real>, m: real)
    requires forall i :: 0 <= i < |xs| ==> m <= xs[i]
    ensures |xs| as real * m <= Sum(xs)
  {
    if |xs| > 0 {
      SumAtLeast(xs[..|xs| - 1], m);
    }
  }

  /** `1^n = 1`. */
  lemma {:induction false} PowOne(n: nat)
    ensures Pow(1.0, n) == 1.0
  {
    if n > 0 {
      PowOne(n - 1);
    }
  }

  /** A base of at least 1 raised to a natural power is at least 1. */
  lemma PowAtLeastOne(b: real, n: nat)
    requires 1.0 <= b
    ensures 1.0 <= Pow(b, n)
  {
    PowMonotoneInBase(1.0, b, n);
    PowOne(n);
  }

  /** Splitting a sum: the left-to-right sum of a concatenation is the sum
      of the two parts. */
  lemma {:induction false} SumConcat(a: seq<real>, b: seq<real>)
    ensures Sum(a + b) == Sum(a) + Sum(b)
    decreases |b|
  {
    if |b| > 0 {
      var n := |b| - 1;
      assert (a + b)[..|a + b| - 1] == a + b[..n];
      SumConcat(a, b[..n]);
    } else {
      assert a + b == a;
    }
  }
}

=== FILE: plans.dfy ===
/** The plan record and the user scenario that every calculation in the
    pension router consumes. Plans are reference data looked up by id; the
    lookup itself is not part of this model, so calculations take the found
    plans as a sequence. */
module Plans {
  import opened Wrappers

  /** The stored plan type. `Other` stands for any value the calculators'
      `switch` statements do not name, which reaches the `default` branch
      where there is one. */
  datatype PlanType = DefinedBenefit | DefinedContribution | Cpp | Other

  /** A pension plan record. Nullable columns are `Option`s. Only `planType`,
      `accrualRate`, `employerMatch`, `retirementAge`, `earlyRetirementAge`,
      `bridgeBenefit` and (in projections) `name` take part in calculations. */
  datatype Plan = Plan(
    id: string,
    name: string,
    description: string,
    planType: PlanType,
    accrualRate: Option<real>,
    employerMatch: Option<real>,
    retirementAge: int,
    earlyRetirementAge: Option<int>,
    bridgeBenefit: bool,
    cppIntegration: bool,
    vestingPeriodYears: Option<int>)

  /** What the user enters: ages and service in whole years (the forms parse
      them with `parseInt`), salary as an annual amount. */
  datatype Scenario = Scenario(
    currentAge: int,
    retirementAge: int,
    currentSalary: real,
    yearsOfService: int)

  /** JavaScript truthiness of a nullable numeric column: `if (plan.accrualRate)`
      is taken only when the value is present and non-zero. */
  predicate Truthy(o: Option<real>)
  {
    o.Some? && o.value != 0.0
  }

  /** Truthiness of a nullable integer column such as `earlyRetirementAge`. */
  predicate TruthyInt(o: Option<int>)
  {
    o.Some? && o.value != 0
  }

  /** Whether the plan's type-specific rate lets its branch compute a
      benefit: a DB plan needs a truthy accrual rate and a DC plan a truthy
      employer match; the other types need none. */
  predicate HasRate(plan: Plan)
  {
    match plan.planType
    case DefinedBenefit => Truthy(plan.accrualRate)
    case DefinedContribution => Truthy(plan.employerMatch)
    case Cpp => true
    case Other => true
  }

  /** The 2024 maximum monthly CPP retirement pension the router uses. */
  const MaxCppMonthly: real := 1306.57

  /** Age from which the simplified CPP branches pay the full amount. */
  const CppFullAge: int := 65

  /** Factor the simplified CPP branches apply: full at 65 or later, a flat
      30% reduction before. */
  function SimpleCppFactor(age: int): (f: real)
    ensures f == 1.0 <==> age >= CppFullAge
    ensures f == 0.7 <==> age < CppFullAge
  {
    if age >= CppFullAge then 1.0 else 0.7
  }

  /** Fraction of the DC accumulation paid out each year (the 4% rule). */
  const WithdrawalRate: real := 0.04

  /** Per-year accrual the simple calculator assumes for an unknown plan type. */
  const FallbackAccrual: real := 0.02
}

=== FILE: projections.dfy ===
/** The year-by-year projection of the `calculateProjections` mutation
    (src/server/api/routers/pension.ts, lines 325-383): one data point per
    whole age from the current age to the retirement age, holding each
    plan's rounded value at that age under the plan's name. */
module Projections {
  import opened Wrappers
  import opened Numeric
  import opened Plans
  import opened Keyed
  import opened Benefits

  /** Years of service a DB plan counts at most in a projection. */
  const ServiceCap: int := 35

  /** One point of the timeline. The age is a field of its own; the plans'
      values are keyed by plan name. */
  datatype DataPoint = DataPoint(age: int, values: map<string, int>)

  /** `1 + percent / 100`: the yearly factor of a percentage rate. */
  function GrowthFactor(percent: real): real
  {
    1.0 + percent / 100.0
  }

  /** Salary after `years` years of compounding growth. */
  function SalaryAtAge(s: Scenario, salaryGrowth: real, years: nat): (salary: real)
    ensures years == 0 ==> salary == s.currentSalary
    ensures 0.0 <= salaryGrowth && 0.0 <= s.currentSalary ==> s.currentSalary <= salary
  {
    NonNegativeGrowth(s.currentSalary, salaryGrowth, years);
    s.currentSalary * Pow(GrowthFactor(salaryGrowth), years)
  }

  lemma NonNegativeGrowth(salary: real, percent: real, years: nat)
    ensures 0.0 <= percent && 0.0 <= salary ==> salary <= salary * Pow(GrowthFactor(percent), years)
  {
    if 0.0 <= percent && 0.0 <= salary {
      PowAtLeastOne(GrowthFactor(percent), years);
      MulBothMonotone(salary, salary, 1.0, Pow(GrowthFactor(percent), years));
    }
  }

  /** Service a DB plan counts `years` years from now, capped at 35. */
  function ServiceAtAge(s: Scenario, years: nat): (service: int)
    ensures service <= ServiceCap
    ensures service == ServiceCap || service == years + s.yearsOfService
    ensures service <= years + s.yearsOfService
  {
    MinInt(years + s.yearsOfService, ServiceCap)
  }

  /** A value due at retirement, discounted back over `yearsToRetirement`
      years at `annualReturn` percent; at or past retirement it is not
      discounted. */
  function Discount(value: real, annualReturn: real, yearsToRetirement: int): (v: real)
    requires yearsToRetirement > 0 ==> annualReturn != -100.0
    ensures yearsToRetirement >= 0 ==> v * Pow(GrowthFactor(annualReturn), yearsToRetirement) == value
    ensures yearsToRetirement <= 0 ==> v == value
  {
    if yearsToRetirement > 0 then value / Pow(GrowthFactor(annualReturn), yearsToRetirement)
    else value
  }

  /** Future value of one unit paid at the start of each of `n` years at
      `rate`: the sum of `(1 + rate)^k` for k from 1 to n. */
  function AnnuityDue(rate: real, n: nat): real
  {
    if n == 0 then 0.0 else AnnuityDue(rate, n - 1) + Pow(1.0 + rate, n)
  }

  lemma AnnuityStep(a: real, p: real, q: real, rate: real)
    requires q == 1.0 + rate
    requires a * rate == (p - 1.0) * q
    ensures (a + q * p) * rate == (q * p - 1.0) * q
  {
    calc {
      (a + q * p) * rate;
      a * rate + q * p * rate;
      (p - 1.0) * q + q * p * (q - 1.0);
      (q * p - 1.0) * q;
    }
  }

  /** The annuity-due sum times the rate telescopes to `((1+rate)^n - 1)(1+rate)`. */
  lemma {:induction false} AnnuityDueTimesRate(rate: real, n: nat)
    ensures AnnuityDue(rate, n) * rate == (Pow(1.0 + rate, n) - 1.0) * (1.0 + rate)
  {
    if n > 0 {
      AnnuityDueTimesRate(rate, n - 1);
      AnnuityStep(AnnuityDue(rate, n - 1), Pow(1.0 + rate, n - 1), 1.0 + rate, rate);
    }
  }

  /** The source's closed form `((1+rate)^n - 1) / rate * (1+rate)` is the
      annuity-due sum. */
  lemma AnnuityDueClosedForm(rate: real, n: nat)
    requires rate != 0.0
    ensures ((Pow(1.0 + rate, n) - 1.0) / rate) * (1.0 + rate) == AnnuityDue(rate, n)
  {
    AnnuityDueTimesRate(rate, n);
  }

  /** The divisions of the plan's branch are defined for every age from the
      current age to the retirement age: the DC branch divides by the rate
      at every such age, and the DB and CPP branches discount, dividing by a
      power of `1 + annualReturn/100`, before the retirement age. When the
      current age is past the retirement age there is no such age and
      nothing is divided. */
  predicate ValueDefined(plan: Plan, s: Scenario, annualReturn: real)
  {
    match plan.planType
    case DefinedBenefit =>
      !Truthy(plan.accrualRate) || s.currentAge >= s.retirementAge || annualReturn != -100.0
    case DefinedContribution =>
      !Truthy(plan.employerMatch) || s.currentAge > s.retirementAge || annualReturn != 0.0
    case Cpp =>
      s.currentAge >= s.retirementAge || annualReturn != -100.0
    case Other => true
  }

  /** A plan's unrounded value at `age`. */
  function AccumulatedValue(plan: Plan, s: Scenario, annualReturn: real, salaryGrowth: real, age: int): (v: real)
    requires s.currentAge <= age <= s.retirementAge
    requires ValueDefined(plan, s, annualReturn)
    ensures !HasRate(plan) ==> v == 0.0
    ensures plan.planType == DefinedBenefit && Truthy(plan.accrualRate) ==>
              v * Pow(GrowthFactor(annualReturn), s.retirementAge - age)
              == SalaryAtAge(s, salaryGrowth, age - s.currentAge) * plan.accrualRate.value
                 * ServiceAtAge(s, age - s.currentAge) as real
    ensures plan.planType == DefinedContribution && Truthy(plan.employerMatch) ==>
              v == SalaryAtAge(s, salaryGrowth, age - s.currentAge) * (plan.employerMatch.value * 2.0)
                   * AnnuityDue(annualReturn / 100.0, age - s.currentAge)
    ensures plan.planType == Cpp ==>
              v * Pow(GrowthFactor(annualReturn), s.retirementAge - age)
              == MaxCppMonthly * 12.0 * SimpleCppFactor(age)
    ensures plan.planType == Other ==>
              v == SalaryAtAge(s, salaryGrowth, age - s.currentAge) * FallbackAccrual
                   * (age - s.currentAge) as real
  {
    var yearsContributed := age - s.currentAge;
    var salaryAtAge := SalaryAtAge(s, salaryGrowth, yearsContributed);
    var yearsToRetirement := s.retirementAge - age;
    match plan.planType
    case DefinedBenefit =>
      if Truthy(plan.accrualRate) then
        var yearlyBenefit := salaryAtAge * plan.accrualRate.value
                             * ServiceAtAge(s, yearsContributed) as real;
        Discount(yearlyBenefit, annualReturn, yearsToRetirement)
      else 0.0
    case DefinedContribution =>
      if Truthy(plan.employerMatch) then
        var annualContribution := salaryAtAge * (plan.employerMatch.value * 2.0);
        DcValue(annualContribution, annualReturn / 100.0, yearsContributed)
      else 0.0
    case Cpp =>
      Discount(MaxCppMonthly * 12.0 * SimpleCppFactor(age), annualReturn, yearsToRetirement)
    case Other =>
      salaryAtAge * FallbackAccrual * yearsContributed as real
  }

  /** The DC accumulation as the source writes it. */
  function DcValue(annualContribution: real, rate: real, years: nat): (v: real)
    requires rate != 0.0
    ensures v == annualContribution * AnnuityDue(rate, years)
  {
    AnnuityDueClosedForm(rate, years);
    var q := Pow(1.0 + rate, years);
    assert annualContribution * ((q - 1.0) / rate) * (1.0 + rate)
           == annualContribution * (((q - 1.0) / rate) * (1.0 + rate));
    annualContribution * ((q - 1.0) / rate) * (1.0 + rate)
  }

  /** Every plan's divisions are defined. */
  predicate ProjectionDefined(plans: seq<Plan>, s: Scenario, annualReturn: real)
  {
    forall i :: 0 <= i < |plans| ==> ValueDefined(plans[i], s, annualReturn)
  }

  /** When the current age is past the retirement age the timeline is
      empty, no value is computed, and so any plans and any return are
      accepted, a DC plan with a zero return included. */
  lemma EmptyTimelineAcceptsAll(plans: seq<Plan>, s: Scenario, annualReturn: real)
    requires s.currentAge > s.retirementAge
    ensures ProjectionDefined(plans, s, annualReturn)
  {
  }

  /** The plans' names, the keys their values are stored under. */
  function Names(plans: seq<Plan>): (names: seq<string>)
    ensures |names| == |plans|
    ensures forall i :: 0 <= i < |plans| ==> names[i] == plans[i].name
  {
    seq(|plans|, i requires 0 <= i < |plans| => plans[i].name)
  }

  /** Each plan's value at `age`, rounded with `Math.round`. */
  function RoundedValues(plans: seq<Plan>, s: Scenario, annualReturn: real, salaryGrowth: real, age: int): (vs: seq<int>)
    requires s.currentAge <= age <= s.retirementAge
    requires ProjectionDefined(plans, s, annualReturn)
    ensures |vs| == |plans|
    ensures forall i :: 0 <= i < |plans| ==>
              vs[i] == Round(AccumulatedValue(plans[i], s, annualReturn, salaryGrowth, age))
  {
    seq(|plans|, i requires 0 <= i < |plans| =>
      Round(AccumulatedValue(plans[i], s, annualReturn, salaryGrowth, age)))
  }

  /** The values of the point at `age`: every plan name is a key, and a
      later plan with a name already used overwrites the earlier value. */
  function PointValues(plans: seq<Plan>, s: Scenario, annualReturn: real, salaryGrowth: real, age: int): (m: map<string, int>)
    requires s.currentAge <= age <= s.retirementAge
    requires ProjectionDefined(plans, s, annualReturn)
    ensures m.Keys == set i | 0 <= i < |plans| :: plans[i].name
    ensures forall i :: IsLastIndex(Names(plans), i) ==>
              m[plans[i].name] == Round(AccumulatedValue(plans[i], s, annualReturn, salaryGrowth, age))
  {
    LastWins(Names(plans), RoundedValues(plans, s, annualReturn, salaryGrowth, age))
  }

  /** The inner loop of the projection: the values of the point at `age`,
      written plan by plan under each plan's name. */
  method BuildPointValues(plans: seq<Plan>, s: Scenario, annualReturn: real, salaryGrowth: real, age: int)
    returns (values: map<string, int>)
    requires s.currentAge <= age <= s.retirementAge
    requires ProjectionDefined(plans, s, annualReturn)
    ensures values == PointValues(plans, s, annualReturn, salaryGrowth, age)
  {
    ghost var names := Names(plans);
    ghost var rounded := RoundedValues(plans, s, annualReturn, salaryGrowth, age);
    values := map[];
    var j := 0;
    while j < |plans|
      invariant 0 <= j <= |plans|
      invariant values == LastWins(names[..j], rounded[..j])
    {
      var plan := plans[j];
      values := values[plan.name := Round(AccumulatedValue(plan, s, annualReturn, salaryGrowth, age))];
      LastWinsExtend(names, rounded, j);
      j := j + 1;
    }
    assert names[..|plans|] == names && rounded[..|plans|] == rounded;
  }

  /** The timeline: one point per age from the current age to the
      retirement age, in ascending order, none when the retirement age is
      below the current age. */
  method CalculateProjections(plans: seq<Plan>, s: Scenario, annualReturn: real, salaryGrowth: real)
    returns (timeline: seq<DataPoint>)
    requires ProjectionDefined(plans, s, annualReturn)
    ensures |timeline| == if s.retirementAge >= s.currentAge then s.retirementAge - s.currentAge + 1 else 0
    ensures forall i :: 0 <= i < |timeline| ==> timeline[i].age == s.currentAge + i
    ensures forall i :: 0 <= i < |timeline| ==>
              && s.currentAge <= timeline[i].age <= s.retirementAge
              && timeline[i].values == PointValues(plans, s, annualReturn, salaryGrowth, timeline[i].age)
  {
    timeline := [];
    var age := s.currentAge;
    while age <= s.retirementAge
      invariant s.currentAge <= age
      invariant age == s.currentAge || age <= s.retirementAge + 1
      invariant |timeline| == age - s.currentAge
      invariant forall i :: 0 <= i < |timeline| ==> timeline[i].age == s.currentAge + i
      invariant forall i :: 0 <= i < |timeline| ==>
                  && s.currentAge <= timeline[i].age <= s.retirementAge
                  && timeline[i].values == PointValues(plans, s, annualReturn, salaryGrowth, timeline[i].age)
      decreases s.retirementAge - age
    {
      var values := BuildPointValues(plans, s, annualReturn, salaryGrowth, age);
      timeline := timeline + [DataPoint(age, values)];
      age := age + 1;
    }
  }

  /** At the retirement age a DB plan's value is its undiscounted yearly
      benefit on the grown salary and the capped service. */
  lemma DbLastPointUndiscounted(plan: Plan, s: Scenario, annualReturn: real, salaryGrowth: real)
    requires s.currentAge <= s.retirementAge
    requires plan.planType == DefinedBenefit && Truthy(plan.accrualRate)
    requires ValueDefined(plan, s, annualReturn)
    ensures var years := s.retirementAge - s.currentAge;
            AccumulatedValue(plan, s, annualReturn, salaryGrowth, s.retirementAge)
            == SalaryAtAge(s, salaryGrowth, years) * plan.accrualRate.value * ServiceAtAge(s, years) as real
  {
  }

  /** With no salary growth and total service within the cap, a DB plan's
      value at the retirement age is the simple calculator's yearly benefit
      for the service the user will have by then. */
  lemma DbLastPointMatchesSimple(plan: Plan, s: Scenario, annualReturn: real)
    requires s.currentAge <= s.retirementAge && s.currentSalary != 0.0
    requires plan.planType == DefinedBenefit && Truthy(plan.accrualRate)
    requires ValueDefined(plan, s, annualReturn)
    requires s.yearsOfService + (s.retirementAge - s.currentAge) <= ServiceCap
    ensures var later := s.(yearsOfService := s.yearsOfService + (s.retirementAge - s.currentAge));
            AccumulatedValue(plan, s, annualReturn, 0.0, s.retirementAge)
            == CalculateBenefit(plan, later).yearlyBenefit
  {
    var years := s.retirementAge - s.currentAge;
    PowOne(years);
    assert GrowthFactor(0.0) == 1.0;
    assert SalaryAtAge(s, 0.0, years) == s.currentSalary;
  }

  /** A CPP plan's value at the retirement age is the simple calculator's
      yearly CPP benefit: at that age the factor keyed on the simulated age
      and the one keyed on the retirement age coincide. */
  lemma CppLastPointMatchesSimple(plan: Plan, s: Scenario, annualReturn: real, salaryGrowth: real)
    requires s.currentAge <= s.retirementAge && s.currentSalary != 0.0
    requires plan.planType == Cpp
    requires ValueDefined(plan, s, annualReturn)
    ensures AccumulatedValue(plan, s, annualReturn, salaryGrowth, s.retirementAge)
            == CalculateBenefit(plan, s).yearlyBenefit
  {
  }

  /** The data point as the source builds it: a single record in which
      `age` is one more key, assigned before the plans' values, so a plan
      whose name is "age" overwrites it. */
  function AsWrittenPoint(plans: seq<Plan>, s: Scenario, annualReturn: real, salaryGrowth: real, age: int): (record: map<string, int>)
    requires s.currentAge <= age <= s.retirementAge
    requires ProjectionDefined(plans, s, annualReturn)
    ensures record.Keys == {"age"} + set i | 0 <= i < |plans| :: plans[i].name
    ensures "age" !in Names(plans) ==> record["age"] == age
    ensures forall i :: IsLastIndex(Names(plans), i) && plans[i].name == "age" ==>
              record["age"] == Round(AccumulatedValue(plans[i], s, annualReturn, salaryGrowth, age))
  {
    map["age" := age] + PointValues(plans, s, annualReturn, salaryGrowth, age)
  }

  /** A CPP plan named "age", projected for someone already at retirement
      age 65, replaces the age 65 of the as-written point by its value
      15679. */
  lemma AgeKeyClobbered()
    ensures var plan := Plan("cpp", "age", "", Cpp, None, None, 65, None, false, false, None);
            var s := Scenario(65, 65, 50000.0, 0);
            AsWrittenPoint([plan], s, 5.0, 2.0, 65)["age"] == 15679 != 65
  {
    var plan := Plan("cpp", "age", "", Cpp, None, None, 65, None, false, false, None);
    var s := Scenario(65, 65, 50000.0, 0);
    var v := AccumulatedValue(plan, s, 5.0, 2.0, 65);
    assert v == 15678.84;
    assert IsLastIndex(Names([plan]), 0);
    assert PointValues([plan], s, 5.0, 2.0, 65)["age"] == Round(v) == 15679;
  }
}

=== FILE: sorting.dfy ===
/** Sorting a sequence of amounts from largest to smallest, as
    `[...xs].sort((a, b) => b - a)` does, and the facts about such
    sequences the CPP dropout provision relies on. */
module Sorting {

  /** Each element is at least as large as every later one. */
  predicate Descending(s: seq<real>)
  {
    forall i, j :: 0 <= i < j < |s| ==> s[i] >= s[j]
  }

  /** `x` placed into a descending sequence before the first smaller element. */
  function Insert(x: real, s: seq<real>): (r: seq<real>)
    requires Descending(s)
    ensures Descending(r)
    ensures multiset(r) == multiset(s) + multiset{x}
    ensures |r| == |s| + 1
  {
    if |s| == 0 then [x]
    else if x >= s[0] then [x] + s
    else
      DescendingTail(s);
      var rest := Insert(x, s[1..]);
      assert s == [s[0]] + s[1..];
      BoundedByHead(s, rest, x);
      [s[0]] + rest
  }

  /** Inserting `x` below the head of `s` into its tail keeps every
      element at most that head. */
  lemma BoundedByHead(s: seq<real>, rest: seq<real>, x: real)
    requires Descending(s) && |s| > 0 && x < s[0]
    requires multiset(rest) == multiset(s[1..]) + multiset{x}
    ensures forall k :: 0 <= k < |rest| ==> rest[k] <= s[0]
  {
    forall k | 0 <= k < |rest| ensures rest[k] <= s[0] {
      assert rest[k] in multiset(rest);
      if rest[k] != x {
        assert rest[k] in multiset(s[1..]);
        var m :| 0 <= m < |s[1..]| && s[1..][m] == rest[k];
        assert s[m + 1] == rest[k];
      }
    }
  }

  /** The elements of `s`, largest first. */
  function SortDescending(s: seq<real>): (r: seq<real>)
    ensures Descending(r)
    ensures multiset(r) == multiset(s)
    ensures |r| == |s|
  {
    if |s| == 0 then []
    else
      assert s == [s[0]] + s[1..];
      Insert(s[0], SortDescending(s[1..]))
  }

  /** The first element of a non-empty descending sequence is its largest. */
  lemma HeadIsLargest(s: seq<real>, x: real)
    requires Descending(s) && x in multiset(s)
    ensures x <= s[0]
  {
    var i :| 0 <= i < |s| && s[i] == x;
  }

  lemma DescendingTail(s: seq<real>)
    requires Descending(s) && |s| > 0
    ensures Descending(s[1..])
  {
    forall i, j | 0 <= i < j < |s| - 1 ensures s[1..][i] >= s[1..][j] {
      assert s[1..][i] == s[i + 1] && s[1..][j] == s[j + 1];
    }
  }

  /** Two descending sequences with the same elements are the same
      sequence, so the sorted order does not depend on the input order. */
  lemma {:induction false} DescendingUnique(a: seq<real>, b: seq<real>)
    requires Descending(a) && Descending(b)
    requires multiset(a) == multiset(b)
    ensures a == b
    decreases |a|
  {
    assert |a| == |multiset(a)| == |multiset(b)| == |b|;
    if |a| > 0 {
      assert a[0] in multiset(a) && b[0] in multiset(b);
      HeadIsLargest(b, a[0]);
      HeadIsLargest(a, b[0]);
      var x := a[0];
      assert b[0] == x;
      assert a == [x] + a[1..] && b == [x] + b[1..];
      assert multiset(a[1..]) == multiset(a) - multiset{x};
      assert multiset(b[1..]) == multiset(b) - multiset{x};
      DescendingTail(a);
      DescendingTail(b);
      DescendingUnique(a[1..], b[1..]);
    }
  }

  /** Sorting gives the one descending rearrangement of its input. */
  lemma SortIsUnique(s: seq<real>, sorted: seq<real>)
    requires Descending(sorted) && multiset(sorted) == multiset(s)
    ensures SortDescending(s) == sorted
  {
    DescendingUnique(SortDescending(s), sorted);
  }
}

=== FILE: wrappers.dfy ===
/** Optional values: a plan field stored as a nullable column, or a result
    field that the calculator leaves undefined. */
module Wrappers {

  datatype Option<+T> = None | Some(value: T) {

    /** The carried value, or `default` when there is none. */
    function GetOr(default: T): T {
      match this
      case Some(v) => v
      case None => default
    }
  }
}
